=== FILE: README.md ===
# AudioConverter, modelled in Dafny

AudioConverter is a small macOS app with one window (`ContentView`). The user
drops `.m4a` files onto it and presses **Start**. The app then runs the
bundled `ffmpeg` once per file, in list order. Each call writes a 16 kHz,
mono, 16-bit PCM `.wav` file with the same stem into the Downloads
directory. While the batch runs, the button reads **Stop**, and a status
line shows `Converting k/N ...`, then `Done` or `Aborted`.

The model has these modules:

- `Naming` covers file references:
  - `pathExtension`;
  - the output-name rule (drop the last three characters, append `wav`);
  - the output path;
  - the fixed converter argument vector.
- `Intake` is the drop filter. It keeps the file URLs with extension `m4a`.
- `Messages` holds the status texts. That includes the decimal rendering of
  the two counts in `Converting k/N ...`.
- `Controller` models the Start/Stop button and the batch loop as functions
  on a `State`. A `State` holds the view's `inputFiles`, `loading` and
  `message`, plus a trace of observable events: converter launches and
  status texts. It also holds the closed-form reference `Expected`, and the
  lemmas about a run.
- `View` holds the class `ContentView`. Its fields are the view's state. Its
  methods run the drop handler, the button and the batch step by step, with
  the three `loading` checkpoints of the loop. Each method is proved to
  produce the state that the `Intake` and `Controller` functions describe.

A run has two concurrent actors: the background task, and the user who can
press Stop at any moment. A run is one deterministic sequence of steps. The
input `StopPress` covers every position of the one press among the
background task's steps. Each main-queue block (a progress text, or `Done`)
runs as soon as it is queued, except in the two race positions below. The
press falls:

- `BeforeFile(i)`: before the check that opens the iteration of file `i`;
- `BeforeCall(i)`: after that check passed, but before the converter is
  launched on file `i`;
- `DuringCall(i)`: after the launch, while file `i` is being converted;
- `BeforeProgress(i)`: after the check that follows the conversion passed,
  but before the main queue shows the new progress text;
- `BeforeDoneCheck`: before the check that guards `Done`;
- `BeforeDoneShown`: after that check passed, but before `Done` is shown;
- `NoStop`: never.

Three positions fall between a check and the step that check guards, and the
model keeps what the source does there:

- At `BeforeCall(i)`, `Aborted` is shown and then the converter is still
  launched on file `i`.
- At `BeforeProgress(i)`, the progress text is shown after `Aborted` and
  overwrites it.
- At `BeforeDoneShown`, `Done` is shown after `Aborted` and overwrites it.

`NothingAfterAbort`, `TerminalTexts` and `FinalStatus` state exactly when
each of these happens. In the model, after `Aborted` at most one more event follows. It is
a converter launch only at `BeforeCall`, and no check that sees the flag
clear is ever followed by a launch.

## Model

| member | source | states |
|---|---|---|
| `Naming.Extension` | AudioConverter/AudioConverter/ContentView.swift:100 | `pathExtension` as the model reads it: the text after the last `.` of the name, or the empty text when there is no `.` or the last `.` opens the name. It has no ensures of its own; `Naming.LastDot` pins down the `.` and `Naming.ExtensionIsM4a` says exactly when the result is `m4a` |
| `Naming.IsM4aFile` | AudioConverter/AudioConverter/ContentView.swift:100 | the intake test: a file URL whose extension is `m4a`. Characterised by `Naming.ExtensionIsM4a` (a non-empty stem followed by `.m4a`) and `Naming.AcceptedNameLength` (at least five characters) |
| `Naming.OutputName` | AudioConverter/AudioConverter/ContentView.swift:141-143 | the output name: the input name without its last three characters, followed by `wav`; it needs three characters, where the source traps. `Naming.M4aBecomesWav` and `Naming.OutputNameOfAccepted` state that it turns `stem.m4a` into `stem.wav` |
| `Naming.OutputPath` | AudioConverter/AudioConverter/ContentView.swift:144 | the output name joined onto the downloads directory; the input directory plays no part. `Naming.OutputPathsCollide` states when two accepted files share it |
| `Naming.LastDot` | AudioConverter/AudioConverter/ContentView.swift:100 | the result is the position of a '.' with no '.' after it, or there is no '.' at all |
| `Naming.ExtensionIsM4a` | AudioConverter/AudioConverter/ContentView.swift:100 | `pathExtension == "m4a"` holds exactly when the name is a non-empty stem followed by `.m4a` (so a bare `.m4a` is refused) |
| `Naming.AcceptedNameLength` | AudioConverter/AudioConverter/ContentView.swift:100 | every file that passes the intake test has a name of at least 5 characters, so the `offsetBy: -3` in the output-name rule cannot trap on it |
| `Naming.OutputNameLength` | AudioConverter/AudioConverter/ContentView.swift:141-143 | for every name of at least three characters, the output name has the same length as the input name |
| `Naming.M4aBecomesWav` | AudioConverter/AudioConverter/ContentView.swift:141-143 | the output name of `stem.m4a` is `stem.wav` |
| `Naming.OutputNameOfAccepted` | AudioConverter/AudioConverter/ContentView.swift:141-143 | for an accepted file, the name is `stem + ".m4a"`, the output name is `stem + ".wav"`, and both have the same length |
| `Naming.OutputPathsCollide` | AudioConverter/AudioConverter/ContentView.swift:141-144 | two accepted files are written to the same output path exactly when their last path components are equal, whatever their directories |
| `Intake.Contribution` | AudioConverter/AudioConverter/ContentView.swift:94-103 | what one provider adds: its loaded URL when it can load one and that URL passes the test, otherwise nothing. `Intake.AcceptedMembership` and `Intake.AcceptedMultiplicity` give the effect of all providers together |
| `Intake.Accepted` | AudioConverter/AudioConverter/ContentView.swift:90-110 | at most one URL is kept per provider, and every kept URL is a file URL with extension `m4a` |
| `Intake.AcceptedMembership` | AudioConverter/AudioConverter/ContentView.swift:93-104 | a URL is kept exactly when it passes the test and some provider that can load resolves to it; providers that cannot load, or load nothing, contribute nothing |
| `Intake.AcceptedMultiplicity` | AudioConverter/AudioConverter/ContentView.swift:93-104 | a URL is kept as many times as loadable providers resolve to it, and never if it fails the test |
| `Intake.AcceptedIgnoresOrder` | AudioConverter/AudioConverter/ContentView.swift:93-107 | the kept URLs, counted with repetition, do not depend on the order of the providers (and so not on the order in which their loads complete) |
| `Messages.Decimal` | AudioConverter/AudioConverter/ContentView.swift:132 | a count is rendered as a non-empty string of decimal digits, with no leading zero (it starts with '0' only for zero, which is the single digit "0") |
| `Messages.ValueOfDecimal` | AudioConverter/AudioConverter/ContentView.swift:132 | reading back the rendered digits gives the count |
| `Messages.DecimalInjective` | AudioConverter/AudioConverter/ContentView.swift:132 | distinct counts render differently |
| `Messages.Progress` | AudioConverter/AudioConverter/ContentView.swift:132 | a progress text is never `Aborted`, `Done` or `Add the input file` |
| `Messages.FirstSlashAfterDigits` | AudioConverter/AudioConverter/ContentView.swift:153 | in `k/N`, with `k` made of digits, the first '/' is the one after `k` |
| `Messages.SplitAtSlash` | AudioConverter/AudioConverter/ContentView.swift:153 | a text `k/N` with digit-only `k` splits back into its two parts |
| `Messages.ProgressInjective` | AudioConverter/AudioConverter/ContentView.swift:132-153 | a progress text determines both of its counts |
| `Controller.Planned` | AudioConverter/AudioConverter/ContentView.swift:137-146 | a batch plans one converter call per file: call `k` is the one for file `k` |
| `Controller.Press` | AudioConverter/AudioConverter/ContentView.swift:56-67 | pressing while loading clears the flag and appends `Aborted`, and nothing else; pressing with no files appends `Add the input file`; otherwise a run starts and first shows `Converting 0/N ...`; the file list is never changed, and the press together with the run it starts ends idle |
| `Controller.Start` | AudioConverter/AudioConverter/ContentView.swift:129-132 | the prologue: set the flag and show `Converting 0/N ...`. `Controller.Press` and `Controller.RunEvents` state the text it adds at the head of a run |
| `Controller.Iteration` | AudioConverter/AudioConverter/ContentView.swift:137-155 | one pass of the `forEach` body for file `i`, with the press applied where `stop` puts it. `Controller.IterationOutcome`, `Controller.InterruptedIteration`, `Controller.UninterruptedIteration` and `Controller.LoopSkipsWhenIdle` give its result for every press point |
| `Controller.Loop` | AudioConverter/AudioConverter/ContentView.swift:137-156 | the passes for files `i..` of the list captured at the start. `Controller.LoopReachesEnd` states that it ends in the closed form `AfterLoop` |
| `Controller.Finish` | AudioConverter/AudioConverter/ContentView.swift:157-163 | the epilogue: the check before `Done`, then clear the flag and show `Done`. `Controller.FinishOutcome`, `Controller.FinishAfterInterruptedLoop` and `Controller.FinishAfterWholeLoop` give its result |
| `Controller.Convert` | AudioConverter/AudioConverter/ContentView.swift:128-164 | the whole run, step by step: `Start`, then `Loop` from file 0, then `Finish`. `Controller.ConvertMatchesExpected` states that it equals `Expected` |
| `Controller.Expected` | AudioConverter/AudioConverter/ContentView.swift:128-164 | the closed-form reference for a run: start text, the `Completed` uninterrupted iterations, then the `Tail` the press leaves, with the final text and counter for each press point. `Controller.CompleteRun`, `Controller.TerminalTexts`, `Controller.NothingAfterAbort`, `Controller.ConversionsInListOrder` and `Controller.FinalStatus` are proved about it |
| `Controller.Completed` | AudioConverter/AudioConverter/ContentView.swift:137-155 | the number of iterations finished before the press never exceeds the number of files |
| `Controller.LoopSkipsWhenIdle` | AudioConverter/AudioConverter/ContentView.swift:137-140 | once the flag is clear, every remaining iteration returns at its first check and changes nothing |
| `Controller.IterationOutcome` | AudioConverter/AudioConverter/ContentView.swift:137-155 | one iteration that starts with the flag set, for each press point: abort before the check at 138, abort and still launch, abort after the launch, race with the progress text, or launch the converter and show `Converting i+1/N ...` |
| `Controller.InterruptedIteration` | AudioConverter/AudioConverter/ContentView.swift:137-155 | the iteration the press falls into ends the loop, as the reference describes |
| `Controller.UninterruptedIteration` | AudioConverter/AudioConverter/ContentView.swift:141-154 | any other iteration keeps the flag set, adds one launch and one progress text, and counts one more file |
| `Controller.LoopReachesEnd` | AudioConverter/AudioConverter/ContentView.swift:137-156 | the loop, from any iteration not yet reached by the press, ends in the closed-form state `AfterLoop` |
| `Controller.FinishOutcome` | AudioConverter/AudioConverter/ContentView.swift:157-163 | the epilogue, for each press point: nothing when the flag is already clear, `Aborted` when the press precedes the check, `Aborted` then `Done` when it follows the check, else clear the flag and show `Done` |
| `Controller.FinishAfterInterruptedLoop` | AudioConverter/AudioConverter/ContentView.swift:157-159 | after a press inside the loop, the epilogue returns at its check |
| `Controller.FinishAfterWholeLoop` | AudioConverter/AudioConverter/ContentView.swift:157-163 | after a loop through every file, the epilogue ends the run as the reference says |
| `Controller.ConvertMatchesExpected` | AudioConverter/AudioConverter/ContentView.swift:128-164 | a whole run, step by step, equals the closed-form reference `Expected` |
| `Controller.StepsShowNoTerminalText` | AudioConverter/AudioConverter/ContentView.swift:137-154 | uninterrupted iterations show neither `Aborted` nor `Done` |
| `Controller.InvocationsAppend` | AudioConverter/AudioConverter/ContentView.swift:146 | the launches recorded in two consecutive stretches of a trace are those of the first followed by those of the second |
| `Controller.InvocationsOfSteps` | AudioConverter/AudioConverter/ContentView.swift:137-146 | the first `k` uninterrupted iterations launch the converter on the first `k` files, in list order |
| `Controller.InvocationsOfTexts` | AudioConverter/AudioConverter/ContentView.swift:153 | status texts alone launch nothing |
| `Controller.InvocationsOfCallThenTexts` | AudioConverter/AudioConverter/ContentView.swift:146-153 | one launch followed by status texts records exactly that launch |
| `Controller.RunEvents` | AudioConverter/AudioConverter/ContentView.swift:128-164 | a run's trace is the start text, then the uninterrupted iterations, then what the press leaves behind |
| `Controller.RunFinished` | AudioConverter/AudioConverter/ContentView.swift:131-151 | at the end of a run the counter equals the iterations finished before the press, plus one when the press raced with a progress text |
| `Controller.CompleteRun` | AudioConverter/AudioConverter/ContentView.swift:128-164 | without a press, the run shows `Converting 0/N ...`, converts every file in order, shows `Done`, ends idle, and the counter equals N |
| `Controller.TailInvocations` | AudioConverter/AudioConverter/ContentView.swift:137-151 | after the uninterrupted iterations, the only possible launch is the one in flight when the press came |
| `Controller.TailTexts` | AudioConverter/AudioConverter/ContentView.swift:138-163 | `Aborted` is in what follows the uninterrupted iterations exactly when the press falls inside the run; `Done` is there exactly when there was no press, or the press came after the last check |
| `Controller.PlannedGrows` | AudioConverter/AudioConverter/ContentView.swift:137-146 | planning one more file appends its call |
| `Controller.Launched` | AudioConverter/AudioConverter/ContentView.swift:137-150 | a run launches the converter at most once per file |
| `Controller.TraceInvocations` | AudioConverter/AudioConverter/ContentView.swift:137-150 | a run's trace launches the converter on the first `Launched` files, in list order |
| `Controller.TailCompletesLaunches` | AudioConverter/AudioConverter/ContentView.swift:137-150 | the calls of the finished iterations, followed by the launches after the press, are the calls for the first `Launched` files |
| `Controller.InvocationsOfParts` | AudioConverter/AudioConverter/ContentView.swift:132-146 | the launches of a start text, the iterations and the tail are those of the iterations followed by those of the tail |
| `Controller.InvocationsOfShown` | AudioConverter/AudioConverter/ContentView.swift:132 | showing a status text launches nothing |
| `Controller.StepsLength` | AudioConverter/AudioConverter/ContentView.swift:137-154 | `k` uninterrupted iterations record `2k` events |
| `Controller.StepAt` | AudioConverter/AudioConverter/ContentView.swift:137-154 | iteration `m` records the launch on file `m` at position `2m` and `Converting m+1/N ...` at position `2m+1` |
| `Controller.RunInvocations` | AudioConverter/AudioConverter/ContentView.swift:137-150 | the launches of a run are the planned calls for a prefix of the list |
| `Controller.ConversionsInListOrder` | AudioConverter/AudioConverter/ContentView.swift:137-155 | for every press point, the launches are the calls for a prefix of the list in list order, at most N of them; the counter never exceeds the launches and trails them by at most the one call in flight |
| `Controller.TailAbortIsLast` | AudioConverter/AudioConverter/ContentView.swift:138-163 | after the uninterrupted iterations, `Aborted` is followed by at most one event, and that event is a launch only for a press between the check at 138 and the launch |
| `Controller.AbortIsLastAppend` | AudioConverter/AudioConverter/ContentView.swift:138-163 | a prefix without `Aborted` keeps that property |
| `Controller.NothingAfterAbort` | AudioConverter/AudioConverter/ContentView.swift:138-163 | in a run, `Aborted` is followed by at most one event. That event is either the status text whose check had passed, or, for a press between the check at 138 and the launch at 146, the launch of that file. No check that sees the flag clear is followed by a launch |
| `Controller.StartAndStepsAt` | AudioConverter/AudioConverter/ContentView.swift:132-153 | in the start text followed by the uninterrupted iterations, the even positions hold the status texts, and position `p` holds `Converting p/2/N ...` |
| `Controller.ProgressTextsDistinct` | AudioConverter/AudioConverter/ContentView.swift:132-153 | the status texts a run shows before the press are pairwise distinct |
| `Controller.PlannedWritesWav` | AudioConverter/AudioConverter/ContentView.swift:141-146 | for accepted files, planned call `j` converts `stem.m4a` (file `j`) into `stem.wav` in the downloads directory |
| `Controller.LaunchesAfter` | AudioConverter/AudioConverter/ContentView.swift:137-146 | appending such calls, at most one per file, to the earlier launches gives a trace of `.wav`-writing launches in list order |
| `Controller.RunWritesWav` | AudioConverter/AudioConverter/ContentView.swift:90-146 | when every listed file passed the intake test, every launch of a run converts the next listed `stem.m4a` into `stem.wav` in the downloads directory, in list order, at most one per file |
| `Controller.PressWritesWav` | AudioConverter/AudioConverter/ContentView.swift:56-67 | the same for the button: on a list of accepted files, it launches nothing but those conversions |
| `Controller.TerminalTexts` | AudioConverter/AudioConverter/ContentView.swift:138-163 | a run shows `Aborted` exactly when the press falls inside it; it shows `Done` exactly when there was no press, or the press came after the check at line 157 had passed (never after an abort the checks saw) |
| `Controller.TraceTexts` | AudioConverter/AudioConverter/ContentView.swift:138-163 | the same two equivalences, for any trace of the closed form |
| `Controller.FinalStatus` | AudioConverter/AudioConverter/ContentView.swift:128-164 | a run ends idle with the list untouched and the counter at most N; the final text is `Done` without a press, `Aborted` after a press the checks saw, and the stale progress text or `Done` in the two races |
| `View.ContentView.Valid` | AudioConverter/AudioConverter/ContentView.swift:90-110 | the invariant of the view: every listed file passed the intake test. `View.ContentView.constructor` and `View.ContentView.Drop` establish it, `View.ContentView.Press` keeps it, and `Controller.PressWritesWav` uses it to show that every launch writes a listed file's `.wav` |
| `View.ContentView.constructor` | AudioConverter/AudioConverter/ContentView.swift:5-8 | a new view has no files, no message, is idle, and has observed nothing |
| `View.ContentView.PerformDropAudio` | AudioConverter/AudioConverter/ContentView.swift:90-110 | the loop over the providers returns exactly `Intake.Accepted`; a URL is in the result exactly when it passes the test and a loadable provider resolves to it |
| `View.ContentView.Drop` | AudioConverter/AudioConverter/ContentView.swift:45-48 | a drop replaces the list with the accepted URLs, leaves the other state alone, keeps the list valid, and reports the drop as handled |
| `View.ContentView.Shell` | AudioConverter/AudioConverter/ContentView.swift:112-126 | launching the converter records exactly that launch and changes no field |
| `View.ContentView.SetMessage` | AudioConverter/AudioConverter/ContentView.swift:59 | assigning the status text records it |
| `View.ContentView.Abort` | AudioConverter/AudioConverter/ContentView.swift:57-60 | the Stop branch clears the flag and shows `Aborted` |
| `View.ContentView.Press` | AudioConverter/AudioConverter/ContentView.swift:56-67 | the button, run step by step, ends in the state `Controller.Press` gives and keeps the list valid. Because the list holds only accepted files, every launch it causes converts a listed `stem.m4a` into `stem.wav` in the downloads directory, in list order |
| `View.ContentView.ConvertFile` | AudioConverter/AudioConverter/ContentView.swift:137-155 | one pass of the `forEach` body, with its two early returns, gives the state and counter of `Controller.Iteration` and leaves the list alone |
| `View.ContentView.Convert` | AudioConverter/AudioConverter/ContentView.swift:128-164 | the batch, run step by step, ends in the state and counter that `Controller.Convert` gives, and leaves the list alone |

## Left out

- Concurrency is modelled as one interleaving per run. `DispatchQueue.global`, `DispatchQueue.main.async` and `DispatchGroup` are not modelled. The race between the background task and one Stop press is the input `StopPress`, with at most one press per run.
- Controller.NothingAfterAbort and Controller.FinalStatus assume that a queued main-queue block runs before the background task's next check, except at `BeforeProgress` and `BeforeDoneShown`. The source can delay such a block longer, and several progress blocks can be waiting at once. Among the interleavings not covered:
  - A press during the call for file `i+1`, while the progress block of file `i` is still queued, ends on that stale progress text, not on `Aborted`.
  - A press after the check at line 138 for file `i+1` passed but before its launch, while the progress block of file `i` is still queued, shows `Aborted` and a stale progress text and launches file `i+1`. The stale text runs on the main queue and the launch on the background task, so these two come in either order, and the run ends on the stale text.
  - A press after the check before `Done`, while the last progress block is still queued, shows `Aborted`, `Converting N/N ...`, `Done`.
  - A press while the progress blocks of several files are still queued: each of them runs after `Aborted`, so any number of progress texts can follow it. With two files and both blocks delayed past a press after the check at line 148 for file 1, the run shows `Aborted`, `Converting 2/2 ...`, `Converting 2/2 ...` and ends on the stale text.
  In every interleaving, covered or not, no check that sees the flag clear is followed by a converter launch; a launch after `Aborted` comes only from a press between the check at line 138 and the launch at line 146.
- The progress block reads `finishedCount` when it runs, not when it is queued. The model shows the count as it was right after the increment. A progress text that runs late with a larger count is not modelled.
- Re-entrancy is not modelled: a second Start while a run's background task is still draining, or a drop during a run.
- The intake's completion callbacks can append URLs in any order. The model resolves providers in the order given. `Intake.AcceptedIgnoresOrder` shows that the kept URLs, as a multiset, do not depend on that order.
- `View.ContentView.Shell` does not model the subprocess's standard output, its exit status, or the `print` of the command line. It records the launch with its path and argument vector and returns nothing. `ffmpeg` itself is not modelled.
- `Bundle.main.url(forResource:)` and `FileManager.default.urls(for: .downloadsDirectory)` become the constant paths `converterPath` and `downloadsPath` of the view. Their force-unwrap traps are not modelled.
- URLs are reduced to a file flag, a parent path and a last path component. `url.path` is the parent joined with the component. Percent-encoding and URL normalisation are not modelled.
- Strings are `seq<char>`. Swift counts grapheme clusters when it steps back three characters, so names with combining characters may differ from the model.
- `Naming.Extension` models `pathExtension` as the text after the last '.', with none when that '.' starts the name. Further edge cases of Foundation's implementation (a trailing '/', a name of dots only) are not modelled.
- `Naming.OutputName` requires at least three characters, where the source traps. The type `Convertible` gives every listed file at least three characters. A file that passed the intake test has at least five, by `View.ContentView.Valid` and `Naming.AcceptedNameLength`.
- The output-name rule is deterministic by construction. Dafny functions are deterministic, so no separate lemma states it.
- The UI layout, the `showPopup` state (never set), the `print` calls, the `#Preview` block and `AudioConverterApp.swift` are not part of this model.

=== FILE: content_view.dfy ===
/**
 * The view itself (ContentView.swift): its state fields, the drop handler,
 * the Start/Stop button and the batch conversion, run step by step. Each
 * operation is proved to produce the state that the functions of modules
 * `Intake` and `Controller` describe.
 */
module View {
  import opened Wrappers
  import opened Naming
  import opened Intake
  import opened Messages
  import opened Controller

  class ContentView {
    /** The dropped files, in the order the drop handler returned them. */
    var inputFiles: seq<Convertible>
    /** The status text under the drop area, if any. */
    var message: Option<string>
    /** Whether a batch is running (the button reads "Stop"). */
    var loading: bool
    /** Everything observed so far: status texts and converter launches. */
    ghost var events: seq<Event>

    /** Where the bundled converter binary lives. */
    const converterPath: string
    /** The user's downloads directory. */
    const downloadsPath: string

    /** Only files that passed the drop handler's test are listed. */
    ghost predicate Valid()
      reads this
    {
      forall u <- inputFiles :: IsM4aFile(u)
    }

    ghost function Snapshot(): State
      reads this
    {
      State(inputFiles, loading, message, events)
    }

    function Environment(): Env
    {
      Env(converterPath, downloadsPath)
    }

    constructor (converterPath: string, downloadsPath: string)
      ensures Valid()
      ensures Snapshot() == State([], false, None, [])
      ensures Environment() == Env(converterPath, downloadsPath)
    {
      this.converterPath := converterPath;
      this.downloadsPath := downloadsPath;
      inputFiles := [];
      message := None;
      loading := false;
      events := [];
    }

    /** Resolves the dropped providers one after another and keeps the file
        URLs whose extension is "m4a". */
    method PerformDropAudio(providers: seq<Provider>) returns (fileURLs: seq<Url>)
      ensures fileURLs == Accepted(providers)
      ensures forall u :: u in fileURLs <==> IsM4aFile(u) && Provider(true, Some(u)) in providers
    {
      fileURLs := [];
      for i := 0 to |providers|
        invariant fileURLs == Accepted(providers[..i])
      {
        var provider := providers[i];
        assert providers[..i + 1] == providers[..i] + [provider];
        assert Accepted(providers[..i + 1]) == fileURLs + Contribution(provider);
        if provider.canLoad {
          match provider.loaded {
            case Some(url) =>
              if url.isFile && Extension(url.lastPathComponent) == "m4a" {
                fileURLs := fileURLs + [url];
              }
            case None =>
          }
        }
      }
      assert providers[..|providers|] == providers;
      forall u ensures u in fileURLs <==> IsM4aFile(u) && Provider(true, Some(u)) in providers {
        AcceptedMembership(providers, u);
      }
    }

    /** The drop handler: replaces the list and reports the drop as handled. */
    method Drop(providers: seq<Provider>) returns (handled: bool)
      modifies this
      ensures Valid()
      ensures inputFiles == Accepted(providers)
      ensures loading == old(loading) && message == old(message) && events == old(events)
      ensures handled
    {
      var urls := PerformDropAudio(providers);
      forall u <- urls ensures 3 <= |u.lastPathComponent| {
        AcceptedNameLength(u);
      }
      inputFiles := urls;
      handled := true;
    }

    /** Launches the converter; its standard output is discarded. */
    method Shell(launchPath: string, arguments: seq<string>)
      modifies this
      ensures Snapshot() == Call(old(Snapshot()), Invocation(launchPath, arguments))
    {
      events := events + [Invoked(Invocation(launchPath, arguments))];
    }

    /** Assigns the status text. */
    method SetMessage(text: string)
      modifies this
      ensures Snapshot() == Show(old(Snapshot()), text)
    {
      message := Some(text);
      events := events + [Shown(text)];
    }

    /** The button while a batch runs: clear the flag, say "Aborted". */
    method Abort()
      modifies this
      ensures Snapshot() == Controller.Abort(old(Snapshot()))
    {
      loading := false;
      SetMessage(Aborted);
    }

    /** The Start/Stop button; `stop` says when, during the batch it may
        start, the user presses it again. */
    method Press(stop: StopPress)
      requires Valid()
      modifies this
      ensures Valid()
      ensures Snapshot() == Controller.Press(old(Snapshot()), Environment(), stop)
      ensures WritesWav(Environment(), inputFiles, Invocations(old(events)), Invocations(events))
    {
      PressWritesWav(Snapshot(), Environment(), stop);
      if loading {
        Abort();
        return;
      }
      if |inputFiles| == 0 {
        SetMessage(AddInputFile);
        return;
      }
      var _ := Convert(stop);
    }

    /** The body of the loop over the files, for file `i`: skip when the flag
        is clear, otherwise launch the converter, then count the file and show
        the new progress unless the flag was cleared meanwhile. */
    method ConvertFile(files: seq<Convertible>, totalCount: nat, stop: StopPress, i: nat, finishedCount: nat)
      returns (finishedCount': nat)
      requires i < |files|
      modifies this
      ensures inputFiles == old(inputFiles)
      ensures (Snapshot(), finishedCount')
           == Iteration(files, Environment(), totalCount, stop, i, old(Snapshot()), finishedCount)
    {
      finishedCount' := finishedCount;
      var url := files[i];
      if stop == BeforeFile(i) { Abort(); }
      if !loading { return; }
      var outputFile := OutputName(url.lastPathComponent);
      var outputPath := JoinPath(downloadsPath, outputFile);
      if stop == BeforeCall(i) { Abort(); }
      Shell(converterPath, ConverterArguments(Path(url), outputPath));
      if stop == DuringCall(i) { Abort(); }
      if !loading { return; }
      finishedCount' := finishedCount' + 1;
      if stop == BeforeProgress(i) { Abort(); }
      SetMessage(Progress(finishedCount', totalCount));
    }

    /** The batch: one converter launch per listed file, with the flag
        checked before each file, after each launch and before "Done";
        returns the final value of the finished counter. */
    method Convert(stop: StopPress) returns (finishedCount: nat)
      modifies this
      ensures inputFiles == old(inputFiles)
      ensures (Snapshot(), finishedCount) == Controller.Convert(old(Snapshot()), Environment(), stop)
    {
      ghost var s0 := Snapshot();
      loading := true;
      var totalCount := |inputFiles|;
      finishedCount := 0;
      SetMessage(Progress(finishedCount, totalCount));
      var files := inputFiles;
      var env := Environment();
      for i := 0 to |files|
        invariant inputFiles == files
        invariant Loop(files, env, totalCount, stop, i, Snapshot(), finishedCount)
               == Loop(files, env, totalCount, stop, 0, Start(s0), 0)
      {
        finishedCount := ConvertFile(files, totalCount, stop, i, finishedCount);
      }
      if stop == BeforeDoneCheck { Abort(); }
      if loading {
        if stop == BeforeDoneShown { Abort(); }
        loading := false;
        SetMessage(Done);
      }
    }
  }
}

=== FILE: controller.dfy ===
/**
 * The Start/Stop state machine and the batch loop of ContentView.swift, as
 * functions on a snapshot of the view's state. Class `View.ContentView`
 * runs the same steps imperatively and is proved equal to these functions.
 *
 * The background task and the main queue are flattened into one sequence of
 * steps; the one Stop press of a run is an input (`StopPress`) that says at
 * which moment of that sequence the user presses the button.
 */
module Controller {
  import opened Wrappers
  import opened Naming
  import opened Messages

  /** The two lookups a run makes once: the bundled converter binary and the
      user's downloads directory. */
  datatype Env = Env(converterPath: string, downloadsPath: string)

  /** One launch of the converter subprocess. */
  datatype Invocation = Invocation(launchPath: string, arguments: seq<string>)

  /** What can be observed of a run: converter launches and status texts, in order. */
  datatype Event = Invoked(call: Invocation) | Shown(text: string)

  /** The view's state: its fields and everything observed so far. */
  datatype State = State(inputFiles: seq<Convertible>, loading: bool, message: Option<string>, events: seq<Event>)

  /** When, during a run, the user presses Stop (at most once per run). */
  datatype StopPress =
    | NoStop
      /** before the check that opens the iteration of file `index` */
    | BeforeFile(index: nat)
      /** after that check passed, before the converter is launched on file `index` */
    | BeforeCall(index: nat)
      /** after the launch, while file `index` is being converted */
    | DuringCall(index: nat)
      /** after the check that follows the conversion passed, before the
          main queue shows the new progress text */
    | BeforeProgress(index: nat)
      /** after the loop, before the check that guards "Done" */
    | BeforeDoneCheck
      /** after that check passed, before the main queue shows "Done" */
    | BeforeDoneShown

  predicate PerFile(stop: StopPress)
  {
    stop.BeforeFile? || stop.BeforeCall? || stop.DuringCall? || stop.BeforeProgress?
  }

  /** Whether the press falls inside a run over `n` files at all. */
  predicate Fires(stop: StopPress, n: nat)
  {
    if PerFile(stop) then stop.index < n else stop != NoStop
  }

  /** The converter call made for one input file. */
  function ConversionOf(env: Env, u: Convertible): Invocation
  {
    Invocation(env.converterPath,
      ConverterArguments(Path(u), OutputPath(env.downloadsPath, u.lastPathComponent)))
  }

  /** The converter calls of a whole batch, in list order. */
  function Planned(env: Env, files: seq<Convertible>): (r: seq<Invocation>)
    ensures |r| == |files|
    ensures forall k :: 0 <= k < |files| ==> r[k] == ConversionOf(env, files[k])
  {
    if files == [] then []
    else Planned(env, files[..|files| - 1]) + [ConversionOf(env, files[|files| - 1])]
  }

  /** The converter calls recorded in a trace, in order. */
  function Invocations(events: seq<Event>): seq<Invocation>
  {
    if events == [] then []
    else
      var last := events[|events| - 1];
      Invocations(events[..|events| - 1]) + if last.Invoked? then [last.call] else []
  }

  // ----- single steps -----

  /** Assigning the `message` field. */
  function Show(s: State, text: string): State
  {
    s.(message := Some(text), events := s.events + [Shown(text)])
  }

  /** Launching the converter; its output is discarded. */
  function Call(s: State, call: Invocation): State
  {
    s.(events := s.events + [Invoked(call)])
  }

  /** The button pressed while loading: clear the flag and say "Aborted". */
  function Abort(s: State): State
  {
    Show(s.(loading := false), Aborted)
  }

  /** The Stop press, if it falls at moment `here`. */
  function StopAt(s: State, stop: StopPress, here: StopPress): State
  {
    if stop == here then Abort(s) else s
  }

  /** Prologue of a run: set the flag and show "Converting 0/N ...". */
  function Start(s: State): State
  {
    Show(s.(loading := true), Progress(0, |s.inputFiles|))
  }

  /** One iteration of the loop body, for file `i`; returns the new state and
      the new finished count. */
  function Iteration(files: seq<Convertible>, env: Env, total: nat, stop: StopPress, i: nat, s: State, finished: nat): (State, nat)
    requires i < |files|
  {
    var s0 := StopAt(s, stop, BeforeFile(i));
    if !s0.loading then (s0, finished)
    else
      var s1 := StopAt(Call(StopAt(s0, stop, BeforeCall(i)), ConversionOf(env, files[i])), stop, DuringCall(i));
      if !s1.loading then (s1, finished)
      else
        var s2 := StopAt(s1, stop, BeforeProgress(i));
        (Show(s2, Progress(finished + 1, total)), finished + 1)
  }

  /** The loop over files `i..` of the captured list. */
  function Loop(files: seq<Convertible>, env: Env, total: nat, stop: StopPress, i: nat, s: State, finished: nat): (State, nat)
    requires i <= |files|
    decreases |files| - i
  {
    if i == |files| then (s, finished)
    else
      var (s', finished') := Iteration(files, env, total, stop, i, s, finished);
      Loop(files, env, total, stop, i + 1, s', finished')
  }

  /** Epilogue of a run: unless the flag is clear, clear it and show "Done". */
  function Finish(s: State, stop: StopPress): State
  {
    var s0 := StopAt(s, stop, BeforeDoneCheck);
    if !s0.loading then s0
    else Show(StopAt(s0, stop, BeforeDoneShown).(loading := false), Done)
  }

  /** A whole run over the current input list; returns the final state and
      the last value of the finished counter. */
  function Convert(s: State, env: Env, stop: StopPress): (State, nat)
  {
    var files := s.inputFiles;
    var (s', finished) := Loop(files, env, |files|, stop, 0, Start(s), 0);
    (Finish(s', stop), finished)
  }

  /** The Start/Stop button. */
  function Press(s: State, env: Env, stop: StopPress): (r: State)
    ensures r.inputFiles == s.inputFiles && !r.loading
    ensures s.loading ==> r.message == Some(Aborted) && r.events == s.events + [Shown(Aborted)]
    ensures !s.loading && s.inputFiles == [] ==>
      r.message == Some(AddInputFile) && r.events == s.events + [Shown(AddInputFile)]
    ensures !s.loading && s.inputFiles != [] ==>
      |s.events| < |r.events| && r.events[..|s.events|] == s.events
      && r.events[|s.events|] == Shown(Progress(0, |s.inputFiles|))
  {
    if s.loading then Abort(s)
    else if |s.inputFiles| == 0 then Show(s, AddInputFile)
    else
      ConvertMatchesExpected(s, env, stop);
      Convert(s, env, stop).0
  }

  // ----- the reference: what a run produces, in closed form -----

  /** The trace of the first `k` iterations when nobody presses Stop. */
  function Steps(env: Env, files: seq<Convertible>, k: nat): seq<Event>
    requires k <= |files|
  {
    if k == 0 then []
    else Steps(env, files, k - 1) + [Invoked(ConversionOf(env, files[k - 1])), Shown(Progress(k, |files|))]
  }

  /** The state after the loop, from a trace `before` and with the flag set. */
  function AfterLoop(inputFiles: seq<Convertible>, env: Env, files: seq<Convertible>, stop: StopPress, before: seq<Event>): (State, nat)
  {
    var n := |files|;
    if PerFile(stop) && stop.index < n then
      var j := stop.index;
      var done := before + Steps(env, files, j);
      var call := Invoked(ConversionOf(env, files[j]));
      if stop.BeforeFile? then
        (State(inputFiles, false, Some(Aborted), done + [Shown(Aborted)]), j)
      else if stop.BeforeCall? then
        (State(inputFiles, false, Some(Aborted), done + [Shown(Aborted), call]), j)
      else if stop.DuringCall? then
        (State(inputFiles, false, Some(Aborted), done + [call, Shown(Aborted)]), j)
      else
        (State(inputFiles, false, Some(Progress(j + 1, n)), done + [call, Shown(Aborted), Shown(Progress(j + 1, n))]), j + 1)
    else
      (State(inputFiles, true, Some(Progress(n, n)), before + Steps(env, files, n)), n)
  }

  /** How many iterations of a run over `n` files finish before the press. */
  function Completed(stop: StopPress, n: nat): (k: nat)
    ensures k <= n
  {
    if PerFile(stop) && stop.index < n then stop.index else n
  }

  /** What a run records after its uninterrupted iterations. */
  function Tail(env: Env, files: seq<Convertible>, stop: StopPress): seq<Event>
  {
    var n := |files|;
    if PerFile(stop) && stop.index < n then
      var j := stop.index;
      var call := Invoked(ConversionOf(env, files[j]));
      if stop.BeforeFile? then [Shown(Aborted)]
      else if stop.BeforeCall? then [Shown(Aborted), call]
      else if stop.DuringCall? then [call, Shown(Aborted)]
      else [call, Shown(Aborted), Shown(Progress(j + 1, n))]
    else if stop == BeforeDoneCheck then [Shown(Aborted)]
    else if stop == BeforeDoneShown then [Shown(Aborted), Shown(Done)]
    else [Shown(Done)]
  }

  /** What a run produces, in closed form: the prologue's text, the
      uninterrupted iterations, then what the press leaves behind. */
  function Expected(s: State, env: Env, stop: StopPress): (State, nat)
  {
    var files := s.inputFiles;
    var n := |files|;
    var events := s.events + [Shown(Progress(0, n))] + Steps(env, files, Completed(stop, n)) + Tail(env, files, stop);
    var raced := stop.BeforeProgress? && stop.index < n;
    var message :=
      if raced then Progress(stop.index + 1, n)
      else if Fires(stop, n) && stop != BeforeDoneShown then Aborted
      else Done;
    var finished := if raced then stop.index + 1 else Completed(stop, n);
    (State(files, false, Some(message), events), finished)
  }

  // ----- the loop against the reference -----

  /** Once the flag is clear, the remaining iterations change nothing. */
  lemma {:induction false} LoopSkipsWhenIdle(files: seq<Convertible>, env: Env, total: nat, stop: StopPress, i: nat, s: State, finished: nat)
    requires i <= |files|
    requires !s.loading
    requires PerFile(stop) ==> stop.index < i
    ensures Loop(files, env, total, stop, i, s, finished) == (s, finished)
    decreases |files| - i
  {
    if i < |files| {
      LoopSkipsWhenIdle(files, env, total, stop, i + 1, s, finished);
    }
  }

  /** One iteration started with the flag set, case by case on the press. */
  lemma IterationOutcome(files: seq<Convertible>, env: Env, stop: StopPress, i: nat, s: State)
    requires i < |files| && s.loading
    ensures var (s', f') := Iteration(files, env, |files|, stop, i, s, i);
      var call := ConversionOf(env, files[i]);
      var progress := Progress(i + 1, |files|);
      if stop == BeforeFile(i) then s' == Abort(s) && f' == i
      else if stop == BeforeCall(i) then s' == Call(Abort(s), call) && f' == i
      else if stop == DuringCall(i) then s' == Abort(Call(s, call)) && f' == i
      else if stop == BeforeProgress(i) then s' == Show(Abort(Call(s, call)), progress) && f' == i + 1
      else s' == Show(Call(s, call), progress) && f' == i + 1
  {
  }

  /** The iteration the press falls into clears the flag; the loop ends there. */
  lemma InterruptedIteration(files: seq<Convertible>, env: Env, stop: StopPress, i: nat, s: State, before: seq<Event>)
    requires i < |files| && PerFile(stop) && stop.index == i
    requires s.loading && s.events == before + Steps(env, files, i)
    ensures Loop(files, env, |files|, stop, i, s, i) == AfterLoop(s.inputFiles, env, files, stop, before)
  {
    var n := |files|;
    var call := ConversionOf(env, files[i]);
    var (s', f') := Iteration(files, env, n, stop, i, s, i);
    assert Loop(files, env, n, stop, i, s, i) == Loop(files, env, n, stop, i + 1, s', f');
    IterationOutcome(files, env, stop, i, s);
    var expected := AfterLoop(s.inputFiles, env, files, stop, before);
    if stop.BeforeFile? {
      assert (s', f') == expected;
    } else if stop.BeforeCall? {
      assert s'.events == s.events + [Shown(Aborted), Invoked(call)];
      assert (s', f') == expected;
    } else if stop.DuringCall? {
      assert s'.events == s.events + [Invoked(call), Shown(Aborted)];
      assert (s', f') == expected;
    } else {
      assert s'.events == s.events + [Invoked(call), Shown(Aborted), Shown(Progress(i + 1, n))];
      assert (s', f') == expected;
    }
    LoopSkipsWhenIdle(files, env, n, stop, i + 1, s', f');
  }

  /** From any iteration reached without a Stop press, the loop ends in `AfterLoop`. */
  lemma {:induction false} LoopReachesEnd(files: seq<Convertible>, env: Env, stop: StopPress, i: nat, s: State, before: seq<Event>)
    requires i <= |files|
    requires s.loading && s.message == Some(Progress(i, |files|))
    requires s.events == before + Steps(env, files, i)
    requires PerFile(stop) ==> i <= stop.index
    ensures Loop(files, env, |files|, stop, i, s, i) == AfterLoop(s.inputFiles, env, files, stop, before)
    decreases |files| - i
  {
    var n := |files|;
    if i < n {
      if PerFile(stop) && stop.index == i {
        InterruptedIteration(files, env, stop, i, s, before);
      } else {
        var (s', f') := Iteration(files, env, n, stop, i, s, i);
        assert Loop(files, env, n, stop, i, s, i) == Loop(files, env, n, stop, i + 1, s', f');
        UninterruptedIteration(files, env, stop, i, s, before);
        LoopReachesEnd(files, env, stop, i + 1, s', before);
      }
    }
  }

  /** An iteration the press does not fall into appends one step to the trace. */
  lemma UninterruptedIteration(files: seq<Convertible>, env: Env, stop: StopPress, i: nat, s: State, before: seq<Event>)
    requires i < |files| && !(PerFile(stop) && stop.index == i)
    requires s.loading && s.events == before + Steps(env, files, i)
    ensures var (s', f') := Iteration(files, env, |files|, stop, i, s, i);
      && s'.inputFiles == s.inputFiles
      && s'.loading && s'.message == Some(Progress(i + 1, |files|))
      && s'.events == before + Steps(env, files, i + 1) && f' == i + 1
  {
    var n := |files|;
    var call := ConversionOf(env, files[i]);
    IterationOutcome(files, env, stop, i, s);
    var (s', f') := Iteration(files, env, n, stop, i, s, i);
    assert s' == Show(Call(s, call), Progress(i + 1, n));
  }

  /** The epilogue, case by case on the press. */
  lemma FinishOutcome(s: State, stop: StopPress)
    ensures var r := Finish(s, stop);
      if !s.loading && stop != BeforeDoneCheck then r == s
      else if stop == BeforeDoneCheck then r == Abort(s)
      else if stop == BeforeDoneShown then r == Show(Abort(s), Done)
      else r == Show(s.(loading := false), Done)
  {
  }

  /** The run's epilogue after a press inside the loop: the flag is already clear. */
  lemma FinishAfterInterruptedLoop(s: State, env: Env, stop: StopPress)
    requires PerFile(stop) && stop.index < |s.inputFiles|
    ensures var files := s.inputFiles;
      var (s', finished) := AfterLoop(files, env, files, stop, s.events + [Shown(Progress(0, |files|))]);
      (Finish(s', stop), finished) == Expected(s, env, stop)
  {
    var files := s.inputFiles;
    var (s', finished) := AfterLoop(files, env, files, stop, s.events + [Shown(Progress(0, |files|))]);
    FinishOutcome(s', stop);
  }

  /** The run's epilogue after the loop went through every file. */
  lemma FinishAfterWholeLoop(s: State, env: Env, stop: StopPress)
    requires !(PerFile(stop) && stop.index < |s.inputFiles|)
    ensures var files := s.inputFiles;
      var (s', finished) := AfterLoop(files, env, files, stop, s.events + [Shown(Progress(0, |files|))]);
      (Finish(s', stop), finished) == Expected(s, env, stop)
  {
    var files := s.inputFiles;
    var (s', finished) := AfterLoop(files, env, files, stop, s.events + [Shown(Progress(0, |files|))]);
    FinishOutcome(s', stop);
    if stop == BeforeDoneShown {
      assert Finish(s', stop).events == s'.events + [Shown(Aborted), Shown(Done)];
    }
  }

  /** A run, step by step, produces exactly the closed form `Expected`. */
  lemma ConvertMatchesExpected(s: State, env: Env, stop: StopPress)
    ensures Convert(s, env, stop) == Expected(s, env, stop)
  {
    var files := s.inputFiles;
    var before := s.events + [Shown(Progress(0, |files|))];
    LoopReachesEnd(files, env, stop, 0, Start(s), before);
    if PerFile(stop) && stop.index < |files| {
      FinishAfterInterruptedLoop(s, env, stop);
    } else {
      FinishAfterWholeLoop(s, env, stop);
    }
  }

  // ----- properties of a run -----

  /** `k` uninterrupted iterations record two events each. */
  lemma {:induction false} StepsLength(env: Env, files: seq<Convertible>, k: nat)
    requires k <= |files|
    ensures |Steps(env, files, k)| == 2 * k
  {
    if k > 0 {
      StepsLength(env, files, k - 1);
    }
  }

  /** Iteration `m` of the first `k`, one position at a time. */
  lemma {:induction false} StepAt(env: Env, files: seq<Convertible>, k: nat, m: nat)
    requires m < k <= |files|
    ensures |Steps(env, files, k)| == 2 * k
    ensures Steps(env, files, k)[2 * m] == Invoked(ConversionOf(env, files[m]))
    ensures Steps(env, files, k)[2 * m + 1] == Shown(Progress(m + 1, |files|))
  {
    var prev := Steps(env, files, k - 1);
    var step := [Invoked(ConversionOf(env, files[k - 1])), Shown(Progress(k, |files|))];
    assert Steps(env, files, k) == prev + step;
    StepsLength(env, files, k - 1);
    if m < k - 1 {
      StepAt(env, files, k - 1, m);
      assert (prev + step)[2 * m] == prev[2 * m];
      assert (prev + step)[2 * m + 1] == prev[2 * m + 1];
    } else {
      assert (prev + step)[2 * m] == step[0];
      assert (prev + step)[2 * m + 1] == step[1];
    }
  }

  /** Position `p` of the start text followed by `k` uninterrupted iterations
      holds a status text exactly when `p` is even, and that text is
      "Converting p/2/N ...". */
  lemma StartAndStepsAt(env: Env, files: seq<Convertible>, k: nat, p: nat)
    requires k <= |files| && p <= 2 * k
    ensures var t := [Shown(Progress(0, |files|))] + Steps(env, files, k);
      |t| == 2 * k + 1 && (t[p].Shown? <==> p % 2 == 0)
      && (t[p].Shown? ==> t[p] == Shown(Progress(p / 2, |files|)))
  {
    var steps := Steps(env, files, k);
    var t := [Shown(Progress(0, |files|))] + steps;
    StepsLength(env, files, k);
    if p > 0 {
      var m := (p - 1) / 2;
      assert t[p] == steps[p - 1];
      StepAt(env, files, k, m);
      if p % 2 == 0 {
        assert p - 1 == 2 * m + 1 && p / 2 == m + 1;
      } else {
        assert p - 1 == 2 * m;
      }
    }
  }


  /** The status texts a run shows before the press are pairwise distinct:
      "Converting 0/N ..." and then one new count per finished file. */
  lemma ProgressTextsDistinct(env: Env, files: seq<Convertible>, k: nat)
    requires k <= |files|
    ensures var t := [Shown(Progress(0, |files|))] + Steps(env, files, k);
      forall p, q :: 0 <= p < q < |t| && t[p].Shown? ==> t[p] != t[q]
  {
    var n := |files|;
    var t := [Shown(Progress(0, n))] + Steps(env, files, k);
    StepsLength(env, files, k);
    forall p, q | 0 <= p < q < |t| && t[p].Shown? ensures t[p] != t[q] {
      StartAndStepsAt(env, files, k, p);
      StartAndStepsAt(env, files, k, q);
      if t[q].Shown? && t[p] == t[q] {
        ProgressInjective(p / 2, n, q / 2, n);
      }
    }
  }

  /** Uninterrupted iterations show neither "Aborted" nor "Done". */
  lemma {:induction false} StepsShowNoTerminalText(env: Env, files: seq<Convertible>, k: nat)
    requires k <= |files|
    ensures Shown(Aborted) !in Steps(env, files, k)
    ensures Shown(Done) !in Steps(env, files, k)
  {
    if k > 0 {
      StepsShowNoTerminalText(env, files, k - 1);
    }
  }

  lemma {:induction false} InvocationsAppend(a: seq<Event>, b: seq<Event>)
    ensures Invocations(a + b) == Invocations(a) + Invocations(b)
    decreases |b|
  {
    if b != [] {
      var b', last := b[..|b| - 1], b[|b| - 1];
      var here := if last.Invoked? then [last.call] else [];
      assert (a + b)[..|a + b| - 1] == a + b';
      assert (a + b)[|a + b| - 1] == last;
      InvocationsAppend(a, b');
      calc {
        Invocations(a + b);
        Invocations(a + b') + here;
        Invocations(a) + Invocations(b') + here;
        Invocations(a) + (Invocations(b') + here);
        Invocations(a) + Invocations(b);
      }
    } else {
      assert a + b == a;
    }
  }

  /** The first `k` uninterrupted iterations launch the converter on the
      first `k` files, in list order. */
  lemma {:induction false} InvocationsOfSteps(env: Env, files: seq<Convertible>, k: nat)
    requires k <= |files|
    ensures Invocations(Steps(env, files, k)) == Planned(env, files[..k])
  {
    if k > 0 {
      var c := ConversionOf(env, files[k - 1]);
      var pair := [Invoked(c)] + [Shown(Progress(k, |files|))];
      assert Steps(env, files, k) == Steps(env, files, k - 1) + pair;
      InvocationsOfSteps(env, files, k - 1);
      InvocationsAppend(Steps(env, files, k - 1), pair);
      InvocationsOfCallThenTexts(c, [Shown(Progress(k, |files|))]);
      PlannedGrows(env, files, k - 1);
    }
  }

  lemma InvocationsOfTexts(texts: seq<Event>)
    requires forall e <- texts :: e.Shown?
    ensures Invocations(texts) == []
  {
    if texts != [] {
      assert texts[|texts| - 1] in texts;
      InvocationsOfTexts(texts[..|texts| - 1]);
    }
  }

  lemma InvocationsOfCallThenTexts(c: Invocation, texts: seq<Event>)
    requires forall e <- texts :: e.Shown?
    ensures Invocations([Invoked(c)] + texts) == [c]
  {
    InvocationsAppend([Invoked(c)], texts);
    InvocationsOfTexts(texts);
    assert [Invoked(c)][..0] == [];
  }

  /** The trace of a run: the prologue's text, the uninterrupted iterations,
      then what the press leaves behind. */
  lemma RunEvents(s: State, env: Env, stop: StopPress)
    ensures var n := |s.inputFiles|;
      Convert(s, env, stop).0.events
      == s.events + [Shown(Progress(0, n))] + Steps(env, s.inputFiles, Completed(stop, n)) + Tail(env, s.inputFiles, stop)
  {
    ConvertMatchesExpected(s, env, stop);
  }

  /** The counter at the end of a run: the iterations that finished before
      the press, plus the one whose progress text raced with it. */
  lemma RunFinished(s: State, env: Env, stop: StopPress)
    ensures var n := |s.inputFiles|;
      Convert(s, env, stop).1
      == if stop.BeforeProgress? && stop.index < n then stop.index + 1 else Completed(stop, n)
  {
    ConvertMatchesExpected(s, env, stop);
  }

  /** Without a Stop press the run shows "Converting 0/N ...", goes through all
      N iterations (see `StepAt`), shows "Done", and ends idle with the
      counter at N. */
  lemma CompleteRun(s: State, env: Env, stop: StopPress)
    requires !Fires(stop, |s.inputFiles|)
    ensures var (r, finished) := Convert(s, env, stop);
      var n := |s.inputFiles|;
      && r.events == s.events + [Shown(Progress(0, n))] + Steps(env, s.inputFiles, n) + [Shown(Done)]
      && !r.loading && r.message == Some(Done) && finished == n
  {
    ConvertMatchesExpected(s, env, stop);
  }

  /** The converter launches in what follows the uninterrupted iterations. */
  lemma TailInvocations(env: Env, files: seq<Convertible>, stop: StopPress)
    ensures var n := |files|;
      Invocations(Tail(env, files, stop))
      == if PerFile(stop) && stop.index < n && !stop.BeforeFile? then [ConversionOf(env, files[stop.index])] else []
  {
    var n := |files|;
    var t := Tail(env, files, stop);
    if stop.BeforeCall? && stop.index < n {
      var c := ConversionOf(env, files[stop.index]);
      assert t == [Shown(Aborted)] + [Invoked(c)];
      InvocationsAppend([Shown(Aborted)], [Invoked(c)]);
      InvocationsOfTexts([Shown(Aborted)]);
      InvocationsOfCallThenTexts(c, []);
      assert [Invoked(c)] + [] == [Invoked(c)];
    } else if PerFile(stop) && stop.index < n && !stop.BeforeFile? {
      var c := ConversionOf(env, files[stop.index]);
      assert t == [Invoked(c)] + t[1..];
      InvocationsOfCallThenTexts(c, t[1..]);
    } else {
      InvocationsOfTexts(t);
    }
  }

  /** "Aborted" and "Done" in what follows the uninterrupted iterations. */
  lemma TailTexts(env: Env, files: seq<Convertible>, stop: StopPress)
    ensures var t := Tail(env, files, stop);
      && (Shown(Aborted) in t <==> Fires(stop, |files|))
      && (Shown(Done) in t <==> !Fires(stop, |files|) || stop == BeforeDoneShown)
  {
    var n := |files|;
    if PerFile(stop) && stop.index < n {
      assert Progress(stop.index + 1, n) != Done;
    }
  }

  lemma PlannedGrows(env: Env, files: seq<Convertible>, k: nat)
    requires k < |files|
    ensures Planned(env, files[..k + 1]) == Planned(env, files[..k]) + [ConversionOf(env, files[k])]
  {
    assert files[..k + 1][..k] == files[..k];
  }

  /** The number of converter launches of a run over `n` files: the files
      that finished, and the one in flight when the press came during or
      right after its conversion. */
  function Launched(stop: StopPress, n: nat): (k: nat)
    ensures k <= n
  {
    if PerFile(stop) && stop.index < n && !stop.BeforeFile? then stop.index + 1 else Completed(stop, n)
  }

  /** A run's trace launches the converter on the first `Launched` files. */
  lemma TraceInvocations(s: State, env: Env, stop: StopPress, events: seq<Event>)
    requires events == s.events + [Shown(Progress(0, |s.inputFiles|))]
      + Steps(env, s.inputFiles, Completed(stop, |s.inputFiles|)) + Tail(env, s.inputFiles, stop)
    ensures Invocations(events) == Invocations(s.events) + Planned(env, s.inputFiles[..Launched(stop, |s.inputFiles|)])
  {
    var files := s.inputFiles;
    var k := Completed(stop, |files|);
    InvocationsOfSteps(env, files, k);
    TailCompletesLaunches(env, files, stop);
    InvocationsOfParts(s.events, Shown(Progress(0, |files|)), Steps(env, files, k), Tail(env, files, stop));
  }

  /** The launches of a trace made of four stretches, the second a status text. */
  lemma InvocationsOfParts(pre: seq<Event>, shown: Event, steps: seq<Event>, tail: seq<Event>)
    requires shown.Shown?
    ensures Invocations(pre + [shown] + steps + tail)
         == Invocations(pre) + (Invocations(steps) + Invocations(tail))
  {
    var x1 := pre + [shown];
    var x2 := x1 + steps;
    var a, b, c := Invocations(pre), Invocations(steps), Invocations(tail);
    calc {
      Invocations(x2 + tail);
      { InvocationsAppend(x2, tail); }
      Invocations(x2) + c;
      { InvocationsAppend(x1, steps); }
      Invocations(x1) + b + c;
      { InvocationsOfShown(pre, shown); }
      a + b + c;
      a + (b + c);
    }
  }

  /** A status text adds no launch. */
  lemma InvocationsOfShown(pre: seq<Event>, shown: Event)
    requires shown.Shown?
    ensures Invocations(pre + [shown]) == Invocations(pre)
  {
    var x := pre + [shown];
    assert x[..|x| - 1] == pre;
    assert Invocations(x) == Invocations(pre) + [];
  }

  /** The calls of the finished iterations, followed by the launches after
      them, are the calls for the first `Launched` files. */
  lemma TailCompletesLaunches(env: Env, files: seq<Convertible>, stop: StopPress)
    ensures Planned(env, files[..Completed(stop, |files|)]) + Invocations(Tail(env, files, stop))
         == Planned(env, files[..Launched(stop, |files|)])
  {
    var k := Completed(stop, |files|);
    TailInvocations(env, files, stop);
    if PerFile(stop) && stop.index < |files| && !stop.BeforeFile? {
      PlannedGrows(env, files, k);
    } else {
      assert Planned(env, files[..k]) + [] == Planned(env, files[..k]);
    }
  }

  /** The converter launches of a run: the first files of the list, in order. */
  lemma RunInvocations(s: State, env: Env, stop: StopPress)
    ensures Invocations(Convert(s, env, stop).0.events)
         == Invocations(s.events) + Planned(env, s.inputFiles[..Launched(stop, |s.inputFiles|)])
  {
    RunEvents(s, env, stop);
    TraceInvocations(s, env, stop, Convert(s, env, stop).0.events);
  }

  /** Whatever the Stop press, the converter is launched on a prefix of the
      list, in list order; the counter never exceeds the number of launches
      and trails it by at most the one call that was in flight. */
  lemma ConversionsInListOrder(s: State, env: Env, stop: StopPress)
    ensures var (r, finished) := Convert(s, env, stop);
      var started := |Invocations(r.events)| - |Invocations(s.events)|;
      && 0 <= started <= |s.inputFiles|
      && Invocations(r.events) == Invocations(s.events) + Planned(env, s.inputFiles[..started])
      && finished <= started <= finished + 1
  {
    RunFinished(s, env, stop);
    RunInvocations(s, env, stop);
  }

  /** A launch that converts `u`, named `stem.m4a`, into `stem.wav` in the
      downloads directory. */
  predicate ConvertsToWav(env: Env, u: Url, c: Invocation)
  {
    var name := u.lastPathComponent;
    4 <= |name| &&
    var stem := name[..|name| - 4];
    && name == stem + ".m4a"
    && c == Invocation(env.converterPath, ConverterArguments(Path(u), JoinPath(env.downloadsPath, stem + ".wav")))
  }

  /** `after` extends the launches `before` by one launch per listed file, in
      list order, each converting its file into a ".wav" file. */
  predicate WritesWav(env: Env, files: seq<Url>, before: seq<Invocation>, after: seq<Invocation>)
  {
    && |before| <= |after| <= |before| + |files|
    && after[..|before|] == before
    && forall k :: |before| <= k < |after| ==> ConvertsToWav(env, files[k - |before|], after[k])
  }

  /** The planned calls for accepted files convert each into its ".wav" file. */
  lemma PlannedWritesWav(env: Env, files: seq<Convertible>, m: nat)
    requires m <= |files| && forall u <- files :: IsM4aFile(u)
    ensures forall j :: 0 <= j < m ==> ConvertsToWav(env, files[j], Planned(env, files[..m])[j])
  {
    forall j | 0 <= j < m ensures ConvertsToWav(env, files[j], Planned(env, files[..m])[j]) {
      OutputNameOfAccepted(files[j]);
    }
  }

  /** When every listed file passed the intake test, every launch of a run
      writes the listed file `stem.m4a` to `stem.wav` in the downloads directory. */
  lemma RunWritesWav(s: State, env: Env, stop: StopPress)
    requires forall u <- s.inputFiles :: IsM4aFile(u)
    ensures WritesWav(env, s.inputFiles, Invocations(s.events), Invocations(Convert(s, env, stop).0.events))
  {
    var before := Invocations(s.events);
    var after := Invocations(Convert(s, env, stop).0.events);
    ConversionsInListOrder(s, env, stop);
    PlannedWritesWav(env, s.inputFiles, |after| - |before|);
    LaunchesAfter(env, s.inputFiles, before, Planned(env, s.inputFiles[..|after| - |before|]));
  }

  lemma LaunchesAfter(env: Env, files: seq<Url>, before: seq<Invocation>, planned: seq<Invocation>)
    requires |planned| <= |files|
    requires forall j :: 0 <= j < |planned| ==> ConvertsToWav(env, files[j], planned[j])
    ensures WritesWav(env, files, before, before + planned)
  {
    var after := before + planned;
    assert after[..|before|] == before;
    forall k | |before| <= k < |after| ensures ConvertsToWav(env, files[k - |before|], after[k]) {
      assert after[k] == planned[k - |before|];
    }
  }

  /** The button, pressed on a list of accepted files, launches only
      conversions of listed `.m4a` files into `.wav` files. */
  lemma PressWritesWav(s: State, env: Env, stop: StopPress)
    requires forall u <- s.inputFiles :: IsM4aFile(u)
    ensures WritesWav(env, s.inputFiles, Invocations(s.events), Invocations(Press(s, env, stop).events))
  {
    if s.loading || s.inputFiles == [] {
      var text := if s.loading then Aborted else AddInputFile;
      InvocationsAppend(s.events, [Shown(text)]);
      InvocationsOfTexts([Shown(text)]);
      assert Press(s, env, stop).events == s.events + [Shown(text)];
    } else {
      RunWritesWav(s, env, stop);
    }
  }

  /** From position `from` on, "Aborted" is followed by at most one more
      event; that one is a converter launch only when `inFlight` holds. */
  predicate AbortIsLast(t: seq<Event>, from: nat, inFlight: bool)
  {
    forall p :: from <= p < |t| && t[p] == Shown(Aborted) ==>
      p + 2 >= |t| && (p + 1 < |t| && t[p + 1].Invoked? ==> inFlight)
  }

  lemma TailAbortIsLast(env: Env, files: seq<Convertible>, stop: StopPress)
    ensures AbortIsLast(Tail(env, files, stop), 0, stop.BeforeCall?)
  {
  }

  lemma AbortIsLastAppend(pre: seq<Event>, t: seq<Event>, from: nat, inFlight: bool)
    requires from <= |pre| && Shown(Aborted) !in pre[from..]
    requires AbortIsLast(t, 0, inFlight)
    ensures AbortIsLast(pre + t, from, inFlight)
  {
    var whole := pre + t;
    forall p | from <= p < |whole| && whole[p] == Shown(Aborted)
      ensures p + 2 >= |whole| && (p + 1 < |whole| && whole[p + 1].Invoked? ==> inFlight)
    {
      assert whole[p] == t[p - |pre|];
      if p + 1 < |whole| {
        assert whole[p + 1] == t[p + 1 - |pre|];
      }
    }
  }

  /** After "Aborted" is shown, at most one more event follows: the status
      text that had already passed its check, or the launch of the file whose
      check at the top of the iteration had already passed. No check that
      sees the flag clear is followed by a launch. */
  lemma NothingAfterAbort(s: State, env: Env, stop: StopPress)
    ensures AbortIsLast(Convert(s, env, stop).0.events, |s.events|, stop.BeforeCall?)
  {
    var files := s.inputFiles;
    var n := |files|;
    var steps := Steps(env, files, Completed(stop, n));
    var pre := s.events + [Shown(Progress(0, n))] + steps;
    RunEvents(s, env, stop);
    StepsShowNoTerminalText(env, files, Completed(stop, n));
    assert pre[|s.events|..] == [Shown(Progress(0, n))] + steps;
    TailAbortIsLast(env, files, stop);
    AbortIsLastAppend(pre, Tail(env, files, stop), |s.events|, stop.BeforeCall?);
  }

  /** "Aborted" is shown exactly when the press falls inside the run; "Done"
      is shown exactly when there was no press, or when the press came after
      the last check had already passed. */
  lemma TerminalTexts(s: State, env: Env, stop: StopPress)
    ensures |s.events| <= |Convert(s, env, stop).0.events|
    ensures var r := Convert(s, env, stop).0;
      var run := r.events[|s.events|..];
      && (Shown(Aborted) in run <==> Fires(stop, |s.inputFiles|))
      && (Shown(Done) in run <==> !Fires(stop, |s.inputFiles|) || stop == BeforeDoneShown)
  {
    RunEvents(s, env, stop);
    TraceTexts(s, env, stop, Convert(s, env, stop).0.events);
  }

  /** "Aborted" and "Done" in the part of a run's trace the run appended. */
  lemma TraceTexts(s: State, env: Env, stop: StopPress, events: seq<Event>)
    requires events == s.events + [Shown(Progress(0, |s.inputFiles|))]
      + Steps(env, s.inputFiles, Completed(stop, |s.inputFiles|)) + Tail(env, s.inputFiles, stop)
    ensures |s.events| <= |events|
    ensures var run := events[|s.events|..];
      && (Shown(Aborted) in run <==> Fires(stop, |s.inputFiles|))
      && (Shown(Done) in run <==> !Fires(stop, |s.inputFiles|) || stop == BeforeDoneShown)
  {
    var files := s.inputFiles;
    var n := |files|;
    var steps := Steps(env, files, Completed(stop, n));
    var tail := Tail(env, files, stop);
    StepsShowNoTerminalText(env, files, Completed(stop, n));
    TailTexts(env, files, stop);
    assert events[|s.events|..] == [Shown(Progress(0, n))] + steps + tail;
  }

  /** Every run ends with the flag clear and the list untouched. Without a
      press it ends on "Done"; a press normally leaves "Aborted", except that
      a progress text or "Done" already past its check overwrites it. */
  lemma FinalStatus(s: State, env: Env, stop: StopPress)
    ensures var (r, finished) := Convert(s, env, stop);
      var n := |s.inputFiles|;
      && r.inputFiles == s.inputFiles && !r.loading && finished <= n
      && (!Fires(stop, n) || stop == BeforeDoneShown ==> r.message == Some(Done))
      && (stop.BeforeProgress? && stop.index < n ==> r.message == Some(Progress(stop.index + 1, n)))
      && (Fires(stop, n) && !stop.BeforeProgress? && stop != BeforeDoneShown ==> r.message == Some(Aborted))
  {
    ConvertMatchesExpected(s, env, stop);
  }
}

=== FILE: intake.dfy ===
/**
 * Intake of dropped items (ContentView.swift, `performDropAudio`): every
 * provider that can load a URL is resolved, and a resolved URL is kept when
 * it is a file URL with extension "m4a".
 */
module Intake {
  import opened Wrappers
  import opened Naming

  /** A drag-and-drop item provider: whether it can load a URL at all, and
      what the load hands back (nothing when it fails). */
  datatype Provider = Provider(canLoad: bool, loaded: Option<Url>)

  /** What one provider contributes to the result. */
  function Contribution(p: Provider): seq<Url>
  {
    if p.canLoad && p.loaded.Some? && IsM4aFile(p.loaded.value) then [p.loaded.value] else []
  }

  /** The URLs kept from `providers`, taken in provider order. */
  function Accepted(providers: seq<Provider>): (r: seq<Url>)
    ensures |r| <= |providers|
    ensures forall u <- r :: IsM4aFile(u)
  {
    if providers == [] then []
    else Accepted(providers[..|providers| - 1]) + Contribution(providers[|providers| - 1])
  }

  /** A URL is kept exactly when some provider that can load resolves to it
      and it passes the file and extension test. */
  lemma {:induction false} AcceptedMembership(providers: seq<Provider>, u: Url)
    ensures u in Accepted(providers) <==> IsM4aFile(u) && Provider(true, Some(u)) in providers
  {
    if providers != [] {
      var init, last := providers[..|providers| - 1], providers[|providers| - 1];
      AcceptedMembership(init, u);
      assert providers == init + [last];
    }
  }

  /** How often a URL is kept: as often as a loadable provider resolves to it. */
  lemma {:induction false} AcceptedMultiplicity(providers: seq<Provider>, u: Url)
    ensures multiset(Accepted(providers))[u]
         == if IsM4aFile(u) then multiset(providers)[Provider(true, Some(u))] else 0
  {
    if providers != [] {
      var init, last := providers[..|providers| - 1], providers[|providers| - 1];
      AcceptedMultiplicity(init, u);
      assert providers == init + [last];
      assert multiset(providers) == multiset(init) + multiset{last};
      assert multiset(Accepted(providers)) == multiset(Accepted(init)) + multiset(Contribution(last));
      assert multiset(Contribution(last))[u]
          == if IsM4aFile(u) && last == Provider(true, Some(u)) then 1 else 0;
    }
  }

  /** The kept URLs, counted with repetition, do not depend on the order in
      which the providers' loads complete. */
  lemma AcceptedIgnoresOrder(ps: seq<Provider>, qs: seq<Provider>)
    requires multiset(ps) == multiset(qs)
    ensures multiset(Accepted(ps)) == multiset(Accepted(qs))
  {
    forall u ensures multiset(Accepted(ps))[u] == multiset(Accepted(qs))[u] {
      AcceptedMultiplicity(ps, u);
      AcceptedMultiplicity(qs, u);
    }
  }
}

=== FILE: messages.dfy ===
/**
 * The status texts the view shows in its `message` field
 * (ContentView.swift, the button action and `convert`).
 */
module Messages {

  const Aborted: string := "Aborted"
  const Done: string := "Done"
  const AddInputFile: string := "Add the input file"

  predicate IsDigit(c: char)
  {
    '0' as int <= c as int <= '9' as int
  }

  /** Decimal rendering of a count, as string interpolation writes an `Int`
      that is not negative: no sign, no leading zeros. */
  function Decimal(n: nat): (r: string)
    ensures 1 <= |r|
    ensures forall c <- r :: IsDigit(c)
    ensures r[0] == '0' <==> n == 0
    ensures n < 10 <==> |r| == 1
    decreases n
  {
    if n < 10 then [('0' as int + n) as char]
    else Decimal(n / 10) + [('0' as int + n % 10) as char]
  }

  /** The number a string of decimal digits denotes. */
  function ValueOf(digits: string): nat
    requires forall c <- digits :: IsDigit(c)
  {
    if digits == [] then 0
    else
      var last := digits[|digits| - 1];
      assert last in digits && IsDigit(last);
      ValueOf(digits[..|digits| - 1]) * 10 + (last as int - '0' as int)
  }

  /** Reading back a rendered count gives the count. */
  lemma {:induction false} ValueOfDecimal(n: nat)
    ensures ValueOf(Decimal(n)) == n
    decreases n
  {
    if 10 <= n {
      ValueOfDecimal(n / 10);
      var d := Decimal(n);
      assert d[..|d| - 1] == Decimal(n / 10);
    }
  }

  /** Distinct counts render differently. */
  lemma DecimalInjective(a: nat, b: nat)
    requires Decimal(a) == Decimal(b)
    ensures a == b
  {
    ValueOfDecimal(a);
    ValueOfDecimal(b);
  }

  /** The progress text "Converting k/n ...". */
  function Progress(finished: nat, total: nat): (r: string)
    ensures r != Aborted && r != Done && r != AddInputFile
  {
    var r := "Converting " + Decimal(finished) + "/" + Decimal(total) + " ...";
    assert r[0] == 'C';
    r
  }

  /** Position of the first '/' in `s` (|s| when there is none). */
  function FirstSlash(s: string): nat
  {
    if s == [] || s[0] == '/' then 0 else 1 + FirstSlash(s[1..])
  }

  /** In `x + "/" + y`, with `x` made of digits, the first '/' is the one after `x`. */
  lemma {:induction false} FirstSlashAfterDigits(x: string, y: string)
    requires forall c <- x :: IsDigit(c)
    ensures FirstSlash(x + "/" + y) == |x|
  {
    if x != [] {
      assert x[0] in x;
      assert (x + "/" + y)[1..] == x[1..] + "/" + y;
      FirstSlashAfterDigits(x[1..], y);
    }
  }

  /** Cutting `x + "/" + y` at its first '/' gives back `x` and `y` when `x` is made of digits. */
  lemma {:induction false} SplitAtSlash(x: string, y: string, x': string, y': string)
    requires forall c <- x :: IsDigit(c)
    requires forall c <- x' :: IsDigit(c)
    requires x + "/" + y == x' + "/" + y'
    ensures x == x' && y == y'
  {
    var s := x + "/" + y;
    FirstSlashAfterDigits(x, y);
    FirstSlashAfterDigits(x', y');
    assert x == s[..|x|];
    assert x' == s[..|x'|];
    assert y == s[|x| + 1..];
    assert y' == s[|x'| + 1..];
  }

  /** A progress text determines both of its counts (so, by
      `Controller.ProgressTextsDistinct`, the texts of one run
      are pairwise distinct). */
  lemma {:induction false} ProgressInjective(k: nat, n: nat, k': nat, n': nat)
    requires Progress(k, n) == Progress(k', n')
    ensures k == k' && n == n'
  {
    var head := "Converting ";
    var m, m' := Decimal(k) + "/" + Decimal(n), Decimal(k') + "/" + Decimal(n');
    assert Progress(k, n) == head + m + " ...";
    assert Progress(k', n') == head + m' + " ...";
    assert |m| == |m'|;
    assert m == Progress(k, n)[|head|..|head| + |m|];
    assert m' == Progress(k', n')[|head|..|head| + |m'|];
    SplitAtSlash(Decimal(k), Decimal(n), Decimal(k'), Decimal(n'));
    DecimalInjective(k, k');
    DecimalInjective(n, n');
  }
}

=== FILE: naming.dfy ===
/**
 * File references and the names the converter reads from and writes to
 * (ContentView.swift, `performDropAudio` and the body of `convert`).
 */
module Naming {
  import opened Wrappers

  /** A URL as the view sees it: whether it is a `file:` URL, the path of its
      parent directory and its last path component. */
  datatype Url = Url(isFile: bool, parent: string, lastPathComponent: string)

  /** Joins one component onto a directory path (`appendingPathComponent`). */
  function JoinPath(directory: string, component: string): string
  {
    directory + "/" + component
  }

  /** The file-system path of a URL (`url.path`). */
  function Path(u: Url): string
  {
    JoinPath(u.parent, u.lastPathComponent)
  }

  /** Index of the last '.' in `name`, if there is one. */
  function LastDot(name: string): (r: Option<nat>)
    ensures r.Some? ==> r.value < |name| && name[r.value] == '.'
    ensures r.Some? ==> forall k :: r.value < k < |name| ==> name[k] != '.'
    ensures r.None? ==> forall k :: 0 <= k < |name| ==> name[k] != '.'
  {
    if |name| == 0 then None
    else if name[|name| - 1] == '.' then Some(|name| - 1)
    else LastDot(name[..|name| - 1])
  }

  /** `pathExtension`: the text after the last '.', or "" when there is no dot
      or the only dot that counts opens the name (a hidden file such as ".m4a"). */
  function Extension(name: string): string
  {
    match LastDot(name)
    case Some(d) => if d == 0 then "" else name[d + 1..]
    case None => ""
  }

  /** The intake test: a file URL whose extension is exactly "m4a". */
  predicate IsM4aFile(u: Url)
  {
    u.isFile && Extension(u.lastPathComponent) == "m4a"
  }

  /** The output file name: the input name without its last three characters,
      followed by "wav". The source's `index(endIndex, offsetBy: -3)` traps on
      names shorter than three characters. */
  function OutputName(name: string): string
    requires 3 <= |name|
  {
    name[..|name| - 3] + "wav"
  }

  /** A URL whose last path component has at least three characters, so
      that an output name can be derived from it. */
  type Convertible = u: Url | 3 <= |u.lastPathComponent| witness Url(true, "", "abc")

  /** Where the converted file is written: the output name inside the downloads directory. */
  function OutputPath(downloads: string, inputName: string): string
    requires 3 <= |inputName|
  {
    JoinPath(downloads, OutputName(inputName))
  }

  /** The fixed argument vector of one converter call. */
  function ConverterArguments(inputPath: string, outputPath: string): seq<string>
  {
    ["-y", "-i", inputPath, "-ar", "16000", "-ac", "1", "-c:a", "pcm_s16le", outputPath]
  }

  /** The extension is "m4a" exactly when the name is some non-empty stem followed by ".m4a". */
  lemma {:induction false} ExtensionIsM4a(name: string)
    ensures Extension(name) == "m4a" <==> 5 <= |name| && name[|name| - 4..] == ".m4a"
  {
    var n := |name|;
    if 5 <= n && name[n - 4..] == ".m4a" {
      assert name[n - 4] == '.' && name[n - 3] == 'm' && name[n - 2] == '4' && name[n - 1] == 'a';
      var d := LastDot(name);
      assert d.Some?;
      assert d.value == n - 4;
      assert name[n - 3..] == "m4a";
    }
    if Extension(name) == "m4a" {
      var d := LastDot(name).value;
      assert 0 < d && name[d + 1..] == "m4a";
      assert n == d + 4;
      calc {
        name[n - 4..];
        name[d..d + 1] + name[d + 1..];
        ['.'] + "m4a";
        ".m4a";
      }
    }
  }

  /** Every accepted file is long enough for the output-name derivation. */
  lemma AcceptedNameLength(u: Url)
    requires IsM4aFile(u)
    ensures 5 <= |u.lastPathComponent|
  {
    ExtensionIsM4a(u.lastPathComponent);
  }

  /** The output-name rule swaps three characters for three, so the length is kept. */
  lemma OutputNameLength(name: string)
    requires 3 <= |name|
    ensures |OutputName(name)| == |name|
  {
  }

  /** A ".m4a" name maps to the same stem with ".wav". */
  lemma {:induction false} M4aBecomesWav(stem: string)
    ensures OutputName(stem + ".m4a") == stem + ".wav"
  {
    var name := stem + ".m4a";
    assert name[..|name| - 3] == stem + ".";
  }

  /** For an accepted file the output name is the stem with ".wav". */
  lemma {:induction false} OutputNameOfAccepted(u: Url)
    requires IsM4aFile(u)
    ensures var name := u.lastPathComponent;
      && 5 <= |name|
      && name == name[..|name| - 4] + ".m4a"
      && OutputName(name) == name[..|name| - 4] + ".wav"
      && |OutputName(name)| == |name|
  {
    var name := u.lastPathComponent;
    ExtensionIsM4a(name);
    assert name == name[..|name| - 4] + name[|name| - 4..];
    M4aBecomesWav(name[..|name| - 4]);
  }

  /** Two accepted files are written to the same output path exactly when they
      have the same last path component, whatever their directories. */
  lemma {:induction false} OutputPathsCollide(downloads: string, u: Url, v: Url)
    requires IsM4aFile(u) && IsM4aFile(v)
    ensures 3 <= |u.lastPathComponent| && 3 <= |v.lastPathComponent|
    ensures OutputPath(downloads, u.lastPathComponent) == OutputPath(downloads, v.lastPathComponent)
        <==> u.lastPathComponent == v.lastPathComponent
  {
    OutputNameOfAccepted(u);
    OutputNameOfAccepted(v);
    var a, b := u.lastPathComponent, v.lastPathComponent;
    var prefix := downloads + "/";
    if OutputPath(downloads, a) == OutputPath(downloads, b) {
      assert OutputName(a) == OutputPath(downloads, a)[|prefix|..];
      assert OutputName(b) == OutputPath(downloads, b)[|prefix|..];
      var sa, sb := a[..|a| - 4], b[..|b| - 4];
      assert sa + ".wav" == sb + ".wav";
      assert |sa| == |sb|;
      assert sa == (sa + ".wav")[..|sa|];
      assert sb == (sb + ".wav")[..|sb|];
    }
  }
}

=== FILE: wrappers.dfy ===
/** Optional values: Swift's `T?`. */
module Wrappers {
  datatype Option<+T> = None | Some(value: T)
}
